=== FILE: README.md ===
# BLE discovery core of pygattlib, in Dafny

pygattlib's `DiscoveryService` scans for Bluetooth Low Energy advertisements
through a BlueZ HCI socket. This project models its core:

- **Advertising data (EIR)** (module `Eir`, `eir.dfy`): the record types of the
  `ScanEntryType` enumeration and the two local-name tags. Also the
  length-prefixed record walk that `parse_name` and the field loop of
  `process_input` both perform. A record is a length byte `L`, a type byte,
  and `L - 1` value bytes. The walk stops at a zero length byte, at a record
  that runs past the data, or at the end. The walk is a function on slices,
  `Records`. `FieldMap` is defined on top of it. `ParseName` is its own
  recursion over the same records, proved to give the first name record
  among those `Records` accepts. `FindName` and `CollectFields` are the
  offset-based loops of the source, proved equal to those functions.
- **Dictionary insertion** (module `Assoc`, `assoc.dfy`): inserting pairs in
  order into a dictionary, the later of two equal keys winning, as a Python
  dict assignment does.
- **One HCI event** (module `Report`, `report.dfy`):
  - the sub-event filter;
  - the `le_advertising_info` layout (address, data length, data, RSSI);
  - the RSSI read as a signed byte, with 0x99 meaning "not available" (127);
  - the advertisement a report yields.
  `EncodeReport` builds an event from its parts: event header, report
  count, event type, address type, address, advertising data, RSSI and the
  bytes after the first report. Every event the decoder accepts is built
  that way, and the decoding lemmas show that decoding gives back the first
  report's contents.
- **The scan lifecycle** (module `Discovery`, `discovery.dfy`):
  - opening the device;
  - `enable_scan_mode`, then `start` (save the socket filter, install an LE
    meta event filter);
  - the `discover` loop with its timeout;
  - `stop`, which restores the filter before disabling the scan.
  The controller is an oracle of booleans saying which calls succeed. Each
  operation returns the sequence of controller calls it made, in order. The
  clock and the readiness of the socket are a sequence of `Tick`s, one per
  loop round.
- **The code as written** (module `AsWritten`, `as_written.dfy`): the
  places where the source does not do what it evidently means (see
  "## Findings"). The other modules use the intended behaviour.

Bytes are `Eir.byte`, a subset of `int`, because the source does `int`
arithmetic on them. An event is the `seq<byte>` a `read` returned. A failed read
is modelled as an empty event, from which no report comes (see "## Left out").

Details the model takes from the code:
- A record type that occurs twice in one advertisement keeps its last value,
  because each record is a dict assignment (src/gattservices.cpp line 85).
- Scan type 0x01 (line 38) is active scanning.
- The address sits at offset 7 of the event, after the sub-event, the report
  count, the event type and the address type, as the BlueZ
  `le_advertising_info` structure that lines 60-67 cast the buffer to lays it
  out.
- `Report.ExampleReport` gives its "Test" name record the length byte 0x05,
  which counts the type byte and the four name bytes.

## Model

| member | source | states |
|---|---|---|
| Eir.EntryType | src/gattservices.h:18-40 | a byte names a record type exactly when it is that type's code in the enumeration; every other byte names none |
| Eir.CodeRoundTrip | src/gattservices.h:18-40 | the enumeration's codes are distinct: decoding any type's code gives that type back |
| Eir.ParseName | src/gattservices.cpp:110-137 | a zero length byte at the front gives the empty name; a name found is at most 254 bytes, and its length plus the two header bytes of its record is at most the length of the data |
| Eir.ParseNameFirstName | src/gattservices.cpp:115-136 | the name is the value of the first short or complete name record among the records the walk accepts, and empty when there is none |
| Eir.ParseNameOfEncode | src/gattservices.cpp:115-136 | when well-formed records contain a name record, the first one's value is found whatever bytes follow the records |
| Eir.ParseNameWithoutName | src/gattservices.cpp:115-136 | records without a name record, followed by bytes the walk stops at, give the empty name |
| Eir.Records | src/gattservices.cpp:115-134 | the records the walk accepts are well-formed and their wire form is a prefix of the data; `Eir.RecordsOfEncode` and `Eir.RecordsStop` pin it down as exactly the walk |
| Eir.RecordsOfEncode | src/gattservices.cpp:115-134 | walking the wire form of well-formed records, followed by bytes the walk stops at, gives back exactly those records |
| Eir.RecordsStop | src/gattservices.cpp:119-120 | the walk stops only where the remaining bytes are empty, start with a zero length byte, or hold a record that runs past their end |
| Eir.OverrunEndsWalk | src/gattservices.cpp:83-84 | a record whose length runs past the data ends the walk and adds nothing to the dictionary |
| Eir.FieldMapContents | src/gattservices.cpp:79-92 | the dictionary's keys are exactly the types of the accepted records, and each type is bound to the value of its last record |
| Eir.FieldMap | src/gattservices.cpp:79-92 | no contract of its own; `Eir.FieldMapContents` and `Eir.OverrunEndsWalk` state what the dictionary holds, and `Eir.CollectFields` is the loop proved equal to it |
| Eir.FindName | src/gattservices.cpp:110-137 | the offset-advancing loop returns the name of the slice-based definition |
| Eir.CollectFields | src/gattservices.cpp:77-92 | the offset-advancing loop builds the dictionary of the slice-based definition |
| Assoc.InsertKeys | src/gattservices.cpp:85-88 | inserting pairs adds exactly their keys to the dictionary |
| Assoc.InsertLast | src/gattservices.cpp:85-88 | a key is bound to the value of its last pair |
| Assoc.InsertAbsent | src/gattservices.cpp:85-88 | a key no pair mentions keeps its binding |
| Assoc.InsertAppend | src/gattservices.cpp:80-92 | inserting two runs of pairs in turn is inserting their concatenation, so the loop may stop and resume anywhere |
| Report.Rssi | src/gattservices.cpp:93-96 | the RSSI is a signed byte in -128..127, congruent to the raw byte modulo 256, and 127 when the raw byte is 0x99 |
| Report.ProcessInput | src/gattservices.cpp:57-108 | any sub-event other than an advertising report yields nothing; a report yields an advertisement exactly when the event holds its announced data and RSSI; the address is six bytes |
| Report.EncodeReportLayout | src/gattservices.cpp:60-67 | an encoded report, whatever its event header, report count, event type, address type and trailing bytes, is an advertising report whose address, data and RSSI sit where the report structure places them |
| Report.EveryReportEncoded | src/gattservices.cpp:57-67 | every event the decoder accepts is the encoding of its own parts, so the decoding lemmas cover every advertisement it yields |
| Report.ReportDecode | src/gattservices.cpp:57-108 | decoding an event gives back its first report's address and RSSI, with the name and dictionary the walk finds in its advertising data, whatever the event header, report count, event type, address type and the bytes after the first report (so a multi-report event decodes its first report) |
| Report.ReportRoundTrip | src/gattservices.cpp:57-108 | decoding an event whose first report's data is a run of records, whatever the header, count, types and trailing bytes, gives back its address, the first name among its records, its RSSI and the dictionary of its records |
| Report.ExampleReport | src/gattservices.cpp:57-108 | the flags-plus-"Test" advertisement from AA:BB:CC:DD:EE:FF with raw RSSI 0x99 decodes to name "Test", RSSI 127 and two fields |
| Discovery.Open | src/gattservices.cpp:15-28 | construction succeeds exactly when the device resolves and opens; otherwise it fails with "invalid device" or "could not open", in that order; a new session holds a descriptor and no callback |
| Discovery.EnableScanMode | src/gattservices.cpp:35-55 | the scan parameters are sent first, with active scanning, interval and window 0x0010, public own address, no filter policy and a 10000 ms timeout; scanning is enabled only after they succeed, and nothing else is sent; each failure has its own error; the filter is not touched |
| Discovery.Start | src/gattservices.cpp:167-185 | every filter call comes after scanning was enabled; an enable failure means no filter call and passes on the enable step's own calls and error ("set scan parameters failed" or "enable scan failed"); after enabling, the old filter is read and then the new one installed, a failed read stopping before the install with "could not get" and a failed install giving "could not set"; success saves the old filter and enables scanning exactly once |
| Discovery.DisableScanMode | src/gattservices.cpp:139-147 | disabling is refused as "not enabled" exactly when the session holds no descriptor, without a call; otherwise one disable command, succeeding when the controller accepts it |
| Discovery.Stop | src/gattservices.cpp:208-213 | the saved filter is restored first, whatever happens next; the outcome is that of disabling the scan |
| Discovery.OpenedSessionCanDisable | src/gattservices.cpp:139-142 | a session built by construction is never refused as "not enabled" |
| Discovery.PollFrom | src/gattservices.cpp:156-161 | the loop stops at the first round whose clock reading reaches the timeout, and runs through every round when none does (always, for timeout 0) |
| Discovery.Poll | src/gattservices.cpp:156-161 | no contract of its own: the loop from its first round; `Discovery.PollFrom`, `Discovery.PollGathers` and `Discovery.PollDelivers` state when it stops, what it gathers and what it delivers |
| Discovery.PollGathers | src/gattservices.cpp:156-161 | the names gathered are the address/name pairs of the handled rounds' advertisements, inserted in order |
| Discovery.PollDelivers | src/gattservices.cpp:74-106 | the loop's calls are one callback delivery per advertisement of the handled rounds, in order, and none without a callback |
| Discovery.PollOnlyDelivers | src/gattservices.cpp:187-206 | a loop round makes no controller call other than a callback delivery |
| Discovery.Discover | src/gattservices.cpp:149-165 | no contract of its own: start, poll, stop; `Discovery.DiscoverOutcome`, `Discovery.StoppedRun`, `Discovery.PollingRun`, `Discovery.FinishedRun`, `Discovery.FinishedScansOnce`, `Discovery.FinishedFound` and `Discovery.FoundSightings` state what a run does |
| Discovery.DiscoverOutcome | src/gattservices.cpp:149-165 | a failure while starting aborts the run with the start's own calls and error, without restoring the filter or disabling the scan, and an enable failure means no filter call at all; a finished run had a round past the deadline, so timeout 0 never finishes; a run still polling had no round past it |
| Discovery.StoppedRun | src/gattservices.cpp:149-165 | once the deadline is reached, the run is the start-up calls, the deliveries of the handled rounds, the filter restore and the disable command; it finishes exactly when the disable succeeds and otherwise fails with "disable scan failed"; a session without a controller restores the filter and fails with "not enabled yet" |
| Discovery.PollingRun | src/gattservices.cpp:149-165 | a run whose rounds ran out before the deadline is the start-up calls and the deliveries of every round, with no teardown |
| Discovery.FinishedRun | src/gattservices.cpp:149-165 | a finished run is the start-up calls, the deliveries of the handled rounds and the stop calls, in that order, and returns each address seen bound to its last name |
| Discovery.FinishedScansOnce | src/gattservices.cpp:149-165 | a finished run enabled and disabled scanning once each and ended with the disable command |
| Discovery.FinishedFound | src/gattservices.cpp:149-165 | the result of a finished run is the address/name pairs of the handled rounds' advertisements, inserted in order |
| Discovery.FoundSightings | src/gattservices.cpp:149-165 | a finished run's result holds the address of every advertisement read in a round the loop handled |
| AsWritten.NameFromAsWritten | src/gattservices.cpp:115-136 | no contract of its own: the name walk with the bound of line 119; `AsWritten.ParseNameReadsPastSpan` and `AsWritten.ParseNameAgreesOnRecords` state where it differs from the intended walk and where it agrees |
| AsWritten.ParseNameReadsPastSpan | src/gattservices.cpp:115-129 | as written, a name record claiming all of the data is accepted, and its name includes the byte after the data; the intended walk gives no name |
| AsWritten.ParseNameAgreesOnRecords | src/gattservices.cpp:115-136 | on advertising data that is exactly a run of records, the name walk as written gives the intended name, so the overrun shows only at the end of the data |
| AsWritten.FieldWalkAsWritten | src/gattservices.cpp:79-94 | the walk's cursor only moves forward and stops at most one byte past the event length; `AsWritten.FieldsReadPastSpan`, `AsWritten.WalkConsumesEncoding` and `AsWritten.RssiOffsetMisplaced` state what it collects and where the RSSI is then read |
| AsWritten.FieldsReadPastSpan | src/gattservices.cpp:79-92 | as written, a record claiming the data plus the RSSI byte enters the dictionary; the intended dictionary is empty |
| AsWritten.WalkConsumesEncoding | src/gattservices.cpp:79-92 | as written, the field walk over data that is exactly a run of records ends at the data's end |
| AsWritten.RssiOffsetMisplaced | src/gattservices.cpp:91-94 | as written, the RSSI of a report with records is read at twice the data length, not right after the data |
| AsWritten.DiscoverAsWritten | src/gattservices.cpp:149-165 | no contract of its own: the run of `Discovery.Discover` with the finished result emptied; `AsWritten.DiscoverDropsSightings` states the difference |
| AsWritten.DiscoverDropsSightings | src/gattservices.cpp:149-165 | in a finished run, an advertisement read in a handled round puts its address into the intended result, while the result as written is empty |

## Left out

- HCI socket I/O (`hci_devid`, `hci_open_dev`, `hci_le_set_scan_parameters`, `hci_le_set_scan_enable`, `getsockopt`, `setsockopt`, `select`, `read`): replaced by the `Controller` oracle and the `Tick` sequence. The calls made are recorded as `Op`s.
- The contents of the HCI filter structure: the saved filter is an opaque byte string. The new filter is the single `InstallLeMetaFilter` call.
- The wall clock (`time`) and the 100 ms `select` wait: each `Tick` carries a clock reading and whether an event was ready.
- `ba2str`: addresses stay the six raw bytes. The `XX:XX:...` text form is not modelled.
- Python glue: `set_callback`, reference counting, the Python dictionaries and the callback call itself. A registered callback is a boolean in the session, and a call to it is a `Deliver` op.
- The destructor and `hci_close_dev`: the model has no resource lifetime.
- Reports after the first in one event: the source decodes only the first, and so does the model (`Report.ReportDecode` holds whatever bytes follow the first report).
- The event code byte: the source relies on the installed filter and only checks the sub-event, and so does the model.
- Report.ProcessInput: yields nothing when the event is shorter than the 14 header bytes, the `L` data bytes its length byte announces and the RSSI byte. The source checks no offset against `size` (src/gattservices.cpp lines 60-94): it decodes whatever the 260-byte buffer of line 190 still holds beyond the event, and for `L > 245` reads the RSSI past the buffer. The model gives the intended behaviour, because bytes outside the event are not part of it.
- Report.ProcessInput: its contract states when an advertisement comes out, the length of its address and the range of its RSSI. The address, name, RSSI and dictionary it returns are stated by `Report.ReportDecode` and `Report.ReportRoundTrip`, and by the `Eir` lemmas.
- A failed read: `do_step` passes the buffer to `process_input` with size -1 even when `read` fails (src/gattservices.cpp lines 203-204), and the buffer then holds bytes that were never written. The model gives such a round an empty event, which yields no report, because the contents of uninitialised memory are not defined.
- Eir.ParseName: the `name_len > size` test on line 126 cannot fire once the record is inside the data. The intended model drops it; `AsWritten.NameFromAsWritten` keeps it.
- Discovery.Discover: the `_is_running` flag is not modelled separately, because the loop's own stopping rule is its only use.

## Findings

| source | as written | input that shows it | evidently intended | confidence | as-written member | corrected member |
|---|---|---|---|---|---|---|
| src/gattservices.cpp:119 | a record is accepted when `offset + field_len <= size`, but a record takes `field_len + 1` bytes | data `[4, 0x09, 'a', 'b', 'c']` with size 4: the name "abc" takes in the byte after the data | accept only when `offset + 1 + field_len <= size` | high, not executed | AsWritten.ParseNameReadsPastSpan | Eir.ParseNameFirstName |
| src/gattservices.cpp:83 | a field record is bounded by the event length `size`, not by `info->length`, and with the same missing `+ 1` | data length 2, data `[2, 0x01]`, then the RSSI byte: the record swallows the RSSI byte | bound by `offset + 1 + field_len <= info->length` | high, not executed | AsWritten.FieldsReadPastSpan | Eir.FieldMapContents |
| src/gattservices.cpp:94 | the RSSI is read at `data[info->length]` after `data` was moved to the end of the walked records | data `[2, 0x01, 0x06]`, length 3: the RSSI is read 6 bytes after the data start, not 3 | read at `info->data[info->length]` | high, not executed | AsWritten.RssiOffsetMisplaced | Report.ReportRoundTrip |
| src/gattservices.cpp:151-164 | `discover` returns `retval`, which nothing fills; each round's names go into `do_step`'s own dictionary, which is dropped | any finished run in which a handled round read an advertisement, such as one round with the example advertisement and timeout 1: the result is empty | return each address seen, bound to its name | high, not executed | AsWritten.DiscoverDropsSightings | Discovery.FoundSightings |

=== FILE: as_written.dfy ===
/** The source's discovery core as it is written, where it differs from what
    it evidently means: two record walks whose bound lets a record run one
    byte past the advertising data, an RSSI read from the wrong place, and a
    discovery result that is never filled. The rest of the model uses the
    intended definitions; the lemmas here exhibit each difference. */
module AsWritten {
  import opened Wrappers
  import opened Eir
  import Report
  import Discovery
  import Assoc

  // ---------------------------------------------------------------------
  // The name walk
  // ---------------------------------------------------------------------

  /** The name walk as written: a record is accepted when offset + L <= size,
      so its last value byte, at offset + L, may be the byte at `size`, just
      past the advertising data. `data` is the memory from the start of the
      advertising data on, long enough to hold that byte. */
  function ParseNameAsWritten(data: seq<byte>, size: nat): seq<byte>
    requires size < |data|
  {
    NameFromAsWritten(data, size, 0)
  }

  function NameFromAsWritten(data: seq<byte>, size: nat, offset: nat): seq<byte>
    requires size < |data| && offset <= size + 1
    decreases size + 1 - offset
  {
    if offset >= size then []
    else
      var fieldLen := data[offset];
      if fieldLen == 0 || offset + fieldLen > size then []
      else if IsNameTag(data[offset + 1]) then
        if fieldLen - 1 > size then [] else data[offset + 2..offset + 1 + fieldLen]
      else NameFromAsWritten(data, size, offset + fieldLen + 1)
  }

  /** A name record that claims exactly the `size` bytes of the advertising
      data is accepted as written, and its name takes in the byte at `size`
      outside the data; the intended walk sees that the record does not fit
      and reports no name. */
  lemma ParseNameReadsPastSpan(data: seq<byte>, size: nat)
    requires 2 <= size < |data| && data[0] == size && IsNameTag(data[1])
    ensures ParseNameAsWritten(data, size) == data[2..size + 1]
    ensures ParseName(data[..size]) == []
  {
  }

  /** The record at `offset` of data that is exactly a run of records there:
      its length byte, type, value, and the records after it. */
  lemma FrontRecord(data: seq<byte>, size: nat, offset: nat, rs: seq<Record>)
    requires offset <= size <= |data| && rs != []
    requires WellFormed(rs) && data[offset..size] == Encode(rs)
    ensures var fieldLen := 1 + |rs[0].value|;
            offset + 1 + fieldLen <= size && data[offset] == fieldLen && data[offset + 1] == rs[0].tag &&
            data[offset + 2..offset + 1 + fieldLen] == rs[0].value &&
            data[offset + 1 + fieldLen..size] == Encode(rs[1..])
  {
    var here := data[offset..size];
    assert here == EncodeRecord(rs[0]) + Encode(rs[1..]);
    DecodeFront(rs[0], Encode(rs[1..]));
    SliceOfSlice(data, offset, size, 2, 2 + |rs[0].value|);
    SliceOfSlice(data, offset, size, 2 + |rs[0].value|, size - offset);
  }

  /** On data that is exactly a run of records from `offset` on, the name
      walk as written finds the first name among them. */
  lemma {:induction false} NameFromEncoding(data: seq<byte>, size: nat, offset: nat, rs: seq<Record>)
    requires size < |data| && offset <= size
    requires WellFormed(rs) && data[offset..size] == Encode(rs)
    ensures NameFromAsWritten(data, size, offset) == FirstName(rs)
    decreases |rs|
  {
    if rs == [] {
      assert |data[offset..size]| == 0;
    } else {
      FrontRecord(data, size, offset, rs);
      NameFromEncoding(data, size, offset + 2 + |rs[0].value|, rs[1..]);
    }
  }

  /** The overrun matters only at the end: on advertising data that is
      exactly a run of records, the name walk as written agrees with the
      intended one. */
  lemma ParseNameAgreesOnRecords(data: seq<byte>, size: nat, rs: seq<Record>)
    requires size < |data| && WellFormed(rs) && data[..size] == Encode(rs)
    ensures ParseNameAsWritten(data, size) == ParseName(data[..size])
  {
    assert data[0..size] == data[..size];
    NameFromEncoding(data, size, 0, rs);
    assert Encode(rs) + [] == Encode(rs);
    RecordsOfEncode(rs, []);
    ParseNameFirstName(data[..size]);
  }

  // ---------------------------------------------------------------------
  // The field walk and the RSSI of process_input
  // ---------------------------------------------------------------------

  /** Where the field walk stopped and what it collected. */
  datatype Walk = Walk(fields: map<byte, seq<byte>>, end: int)

  /** The field walk as written: it runs while offset < length but bounds a
      record by the event length `size` instead of the data length. `data`
      is the memory from the start of the advertising data on. */
  function FieldWalkAsWritten(data: seq<byte>, length: nat, size: nat, offset: nat,
                              fields: map<byte, seq<byte>>): (w: Walk)
    requires length <= size < |data| && offset <= size + 1
    ensures offset <= w.end <= size + 1
    decreases size + 1 - offset
  {
    if offset >= length then Walk(fields, offset)
    else
      var fieldLen := data[offset];
      if fieldLen == 0 || offset + fieldLen > size then Walk(fields, offset)
      else
        FieldWalkAsWritten(data, length, size, offset + fieldLen + 1,
                           fields[data[offset + 1] := data[offset + 2..offset + 1 + fieldLen]])
  }

  /** The dictionary the field walk builds as written. */
  function FieldsAsWritten(data: seq<byte>, length: nat, size: nat): map<byte, seq<byte>>
    requires length <= size < |data|
  {
    FieldWalkAsWritten(data, length, size, 0, map[]).fields
  }

  /** Where the RSSI is read as written, counted from the start of the
      advertising data: the walk leaves its data cursor at the end of the
      records it walked, and the RSSI is then read `length` bytes further. */
  function RssiOffsetAsWritten(data: seq<byte>, length: nat, size: nat): int
    requires length <= size < |data|
  {
    FieldWalkAsWritten(data, length, size, 0, map[]).end + length
  }

  /** A record that claims the whole advertising data plus the byte after it
      (the RSSI) is accepted as written, its value taking in that byte; the
      intended walk rejects it and the dictionary stays empty. */
  lemma FieldsReadPastSpan(data: seq<byte>, length: nat, size: nat)
    requires 2 <= length <= size < |data| && data[0] == length
    ensures FieldsAsWritten(data, length, size) == map[data[1] := data[2..length + 1]]
    ensures FieldMap(data[..length]) == map[]
  {
    var m := map[data[1] := data[2..length + 1]];
    assert FieldWalkAsWritten(data, length, size, length + 1, m) == Walk(m, length + 1);
    assert FieldWalkAsWritten(data, length, size, 0, map[]) == Walk(m, length + 1);
    assert !Fits(data[..length]);
  }

  /** On advertising data that is exactly a run of records, the walk as
      written consumes it all. */
  lemma {:induction false} WalkConsumesEncoding(data: seq<byte>, length: nat, size: nat, offset: nat,
                                                fields: map<byte, seq<byte>>, rs: seq<Record>)
    requires length <= size < |data| && offset <= length
    requires WellFormed(rs) && data[offset..length] == Encode(rs)
    ensures FieldWalkAsWritten(data, length, size, offset, fields).end == length
    decreases |rs|
  {
    if rs == [] {
      assert |data[offset..length]| == 0;
    } else {
      var fieldLen := 1 + |rs[0].value|;
      FrontRecord(data, length, offset, rs);
      WalkConsumesEncoding(data, length, size, offset + fieldLen + 1,
                           fields[data[offset + 1] := data[offset + 2..offset + 1 + fieldLen]], rs[1..]);
    }
  }

  /** On a report whose advertising data is a nonempty run of records, the
      RSSI is read as written at twice the data length, not just after the
      data where the controller put it. */
  lemma RssiOffsetMisplaced(data: seq<byte>, length: nat, size: nat, rs: seq<Record>)
    requires length <= size < |data|
    requires WellFormed(rs) && rs != [] && data[..length] == Encode(rs)
    ensures RssiOffsetAsWritten(data, length, size) == 2 * length
    ensures RssiOffsetAsWritten(data, length, size) != length
  {
    assert data[0..length] == data[..length];
    WalkConsumesEncoding(data, length, size, 0, map[], rs);
  }

  // ---------------------------------------------------------------------
  // discover
  // ---------------------------------------------------------------------

  /** discover as written: the same calls, but the dictionary it returns is
      never filled (each round's names go into a dictionary that is dropped). */
  function DiscoverAsWritten(s: Discovery.Session, c: Discovery.Controller, timeout: int, ts: int,
                             ticks: seq<Discovery.Tick>): Discovery.Run
  {
    var run := Discovery.Discover(s, c, timeout, ts, ticks);
    if run.outcome.Finished? then run.(outcome := Discovery.Finished(map[])) else run
  }

  /** In a finished run, the intended result holds the address of every
      advertisement read in a handled round; the result as written is empty
      all the same. */
  lemma DiscoverDropsSightings(s: Discovery.Session, c: Discovery.Controller, timeout: int, ts: int,
                               ticks: seq<Discovery.Tick>, k: nat)
    requires Discovery.Discover(s, c, timeout, ts, ticks).outcome.Finished?
    requires k < |ticks| && k < Discovery.Handled(Discovery.Poll(Report.ProcessInput, s.callback, timeout, ts, ticks), ticks)
    requires Discovery.Sighting(Report.ProcessInput, ticks[k]).Some?
    ensures Discovery.Sighting(Report.ProcessInput, ticks[k]).value.address
              in Discovery.Discover(s, c, timeout, ts, ticks).outcome.found
    ensures DiscoverAsWritten(s, c, timeout, ts, ticks).outcome == Discovery.Finished(map[])
  {
    Discovery.FoundSightings(s, c, timeout, ts, ticks, k);
  }
}

=== FILE: assoc.dfy ===
/** Maps built by inserting key/value pairs one after another, the way the
    decoder fills its field dictionary and the discovery loop its result. */
module Assoc {

  /** Inserts the pairs of `ps` into `m` from left to right; a later pair
      overwrites an earlier pair with the same key. */
  function Insert<K, V>(m: map<K, V>, ps: seq<(K, V)>): map<K, V>
    decreases |ps|
  {
    if ps == [] then m else Insert(m[ps[0].0 := ps[0].1], ps[1..])
  }

  /** The keys that occur in `ps`. */
  function KeysOf<K, V>(ps: seq<(K, V)>): set<K>
  {
    set i | 0 <= i < |ps| :: ps[i].0
  }

  /** No pair after position `i` has the key of pair `i`. */
  predicate IsLast<K(==), V>(ps: seq<(K, V)>, i: int)
    requires 0 <= i < |ps|
  {
    forall j :: i < j < |ps| ==> ps[j].0 != ps[i].0
  }

  /** The resulting key set is the initial one plus every key of `ps`. */
  lemma {:induction false} InsertKeys<K, V>(m: map<K, V>, ps: seq<(K, V)>)
    ensures Insert(m, ps).Keys == m.Keys + KeysOf(ps)
    decreases |ps|
  {
    if ps != [] {
      InsertKeys(m[ps[0].0 := ps[0].1], ps[1..]);
      assert KeysOf(ps) == {ps[0].0} + KeysOf(ps[1..]) by {
        forall k | k in KeysOf(ps) ensures k in {ps[0].0} + KeysOf(ps[1..]) {
          var i :| 0 <= i < |ps| && ps[i].0 == k;
          if i > 0 {
            assert ps[1..][i - 1] == ps[i];
          }
        }
        forall k | k in KeysOf(ps[1..]) ensures k in KeysOf(ps) {
          var i :| 0 <= i < |ps[1..]| && ps[1..][i].0 == k;
          assert ps[i + 1] == ps[1..][i];
        }
      }
    }
  }

  /** A key that occurs in `ps` ends up bound to the value of its last pair. */
  lemma {:induction false} InsertLast<K, V>(m: map<K, V>, ps: seq<(K, V)>, i: int)
    requires 0 <= i < |ps| && IsLast(ps, i)
    ensures ps[i].0 in Insert(m, ps) && Insert(m, ps)[ps[i].0] == ps[i].1
    decreases |ps|
  {
    var m' := m[ps[0].0 := ps[0].1];
    if i == 0 {
      InsertAbsent(m', ps[1..], ps[0].0);
    } else {
      assert ps[1..][i - 1] == ps[i];
      assert IsLast(ps[1..], i - 1) by {
        forall j | i - 1 < j < |ps[1..]| ensures ps[1..][j].0 != ps[1..][i - 1].0 {
          assert ps[1..][j] == ps[j + 1];
        }
      }
      InsertLast(m', ps[1..], i - 1);
    }
  }

  /** A key that no pair of `ps` mentions keeps its initial binding. */
  lemma {:induction false} InsertAbsent<K, V>(m: map<K, V>, ps: seq<(K, V)>, k: K)
    requires k in m
    requires forall j :: 0 <= j < |ps| ==> ps[j].0 != k
    ensures k in Insert(m, ps) && Insert(m, ps)[k] == m[k]
    decreases |ps|
  {
    if ps != [] {
      assert ps[0].0 != k;
      forall j | 0 <= j < |ps[1..]| ensures ps[1..][j].0 != k {
        assert ps[1..][j] == ps[j + 1];
      }
      InsertAbsent(m[ps[0].0 := ps[0].1], ps[1..], k);
    }
  }

  /** Inserting a concatenation is inserting its halves in turn. */
  lemma {:induction false} InsertAppend<K, V>(m: map<K, V>, ps: seq<(K, V)>, qs: seq<(K, V)>)
    ensures Insert(m, ps + qs) == Insert(Insert(m, ps), qs)
    decreases |ps|
  {
    if ps != [] {
      assert (ps + qs)[0] == ps[0];
      assert (ps + qs)[1..] == ps[1..] + qs;
      InsertAppend(m[ps[0].0 := ps[0].1], ps[1..], qs);
    } else {
      assert ps + qs == qs;
    }
  }
}

=== FILE: discovery.dfy ===
/** The scan session and the discovery loop: open the controller, enable
    scanning, save the socket filter and install one that lets LE meta events
    through, poll until the deadline, then restore the filter and disable
    scanning. Controller commands and socket calls are not performed here:
    their outcomes are given as a `Controller` of oracle answers, and every
    call the session makes is recorded, in order, as an `Op`. Time is a clock
    reading carried by each poll tick. */
module Discovery {
  import opened Wrappers
  import opened Eir
  import Report
  import Assoc

  /** The descriptor a session holds before a controller is opened. */
  const NoDescriptor: int := -1

  // Parameters of the LE Set Scan Parameters and LE Set Scan Enable commands.
  const ScanTypeActive: byte := 0x01
  const ScanInterval: nat := 0x0010
  const ScanWindow: nat := 0x0010
  const OwnAddressPublic: byte := 0x00
  const AcceptAllAdvertisers: byte := 0x00
  const ScanOn: byte := 0x01
  const ScanOff: byte := 0x00
  const FilterDuplicatesOn: byte := 0x01
  const CommandTimeoutMs: nat := 10000

  datatype Error =
    | InvalidDevice      // the device name does not resolve to a controller
    | OpenFailed         // the controller could not be opened
    | SetParametersFailed
    | EnableFailed
    | GetFilterFailed
    | SetFilterFailed
    | NotEnabled         // disable asked of a session without a controller
    | DisableFailed

  /** A call the session makes on the controller or its socket, or a
      delivery to the registered callback. */
  datatype Op =
    | SetScanParameters(scanType: byte, interval: nat, window: nat, ownType: byte, filterPolicy: byte, timeoutMs: nat)
    | SetScanEnable(enable: byte, filterDuplicates: byte, timeoutMs: nat)
    | ReadFilter
    | InstallLeMetaFilter
    | RestoreFilter(snapshot: Option<seq<byte>>)
    | Deliver(address: seq<byte>, advert: Report.Advertisement)

  const EnableScan: Op := SetScanEnable(ScanOn, FilterDuplicatesOn, CommandTimeoutMs)
  const DisableScan: Op := SetScanEnable(ScanOff, FilterDuplicatesOn, CommandTimeoutMs)

  /** The calls that read or change the socket filter. */
  predicate TouchesFilter(op: Op)
  {
    op.ReadFilter? || op.InstallLeMetaFilter? || op.RestoreFilter?
  }

  /** How many times `op` occurs in `ops`. */
  function Occurrences(ops: seq<Op>, op: Op): nat
  {
    if ops == [] then 0 else (if ops[0] == op then 1 else 0) + Occurrences(ops[1..], op)
  }

  /** Occurrences in a concatenation add up. */
  lemma {:induction false} OccurrencesAppend(a: seq<Op>, b: seq<Op>, op: Op)
    ensures Occurrences(a + b, op) == Occurrences(a, op) + Occurrences(b, op)
    decreases |a|
  {
    if a != [] {
      assert (a + b)[1..] == a[1..] + b;
      OccurrencesAppend(a[1..], b, op);
    } else {
      assert a + b == b;
    }
  }

  /** An operation that is not in `ops` occurs there zero times. */
  lemma {:induction false} OccurrencesAbsent(ops: seq<Op>, op: Op)
    requires op !in ops
    ensures Occurrences(ops, op) == 0
    decreases |ops|
  {
    if ops != [] {
      assert forall x <- ops[1..] :: x in ops;
      OccurrencesAbsent(ops[1..], op);
    }
  }

  /** A discovery service: the device name, the controller descriptor,
      whether a callback is registered, and the filter saved by `Start`. */
  datatype Session = Session(device: string, desc: int, callback: bool, saved: Option<seq<byte>>)

  /** The answers the controller and its socket give, one per call. */
  datatype Controller = Controller(
    parametersOk: bool,            // LE Set Scan Parameters succeeds
    enableOk: bool,                // LE Set Scan Enable (on) succeeds
    filter: Option<seq<byte>>,     // reading the socket filter: the filter, or failure
    installOk: bool,               // installing the LE meta event filter succeeds
    disableOk: bool)               // LE Set Scan Enable (off) succeeds

  /** The calls an operation made and what it returned. */
  datatype Effect<T> = Effect(ops: seq<Op>, result: Result<T, Error>)

  /** Construct a session on `device`; `devId` is what resolving the name
      gave and `desc` what opening the controller gave. */
  function Open(device: string, devId: int, desc: int): (r: Result<Session, Error>)
    ensures r.Success? <==> devId >= 0 && desc >= 0
    ensures devId < 0 ==> r == Failure(InvalidDevice)
    ensures devId >= 0 && desc < 0 ==> r == Failure(OpenFailed)
    ensures r.Success? ==> r.value.desc != NoDescriptor && !r.value.callback && r.value.device == device
  {
    if devId < 0 then Failure(InvalidDevice)
    else if desc < 0 then Failure(OpenFailed)
    else Success(Session(device, desc, false, None))
  }

  /** Set the scan parameters, then turn scanning on; the second command is
      only sent once the first succeeded. */
  function EnableScanMode(s: Session, c: Controller): (r: Effect<()>)
    ensures r.result.Success? <==> c.parametersOk && c.enableOk
    ensures !c.parametersOk ==> r.result == Failure(SetParametersFailed)
    ensures c.parametersOk && !c.enableOk ==> r.result == Failure(EnableFailed)
    ensures |r.ops| > 0 && r.ops[0] == SetScanParameters(ScanTypeActive, ScanInterval, ScanWindow,
                                                         OwnAddressPublic, AcceptAllAdvertisers, CommandTimeoutMs)
    ensures !c.parametersOk ==> |r.ops| == 1
    ensures c.parametersOk ==> |r.ops| == 2 && r.ops[1] == EnableScan
    ensures EnableScan in r.ops <==> c.parametersOk
    ensures forall op <- r.ops :: !TouchesFilter(op) && !op.Deliver?
  {
    var parameters := [SetScanParameters(ScanTypeActive, ScanInterval, ScanWindow,
                                         OwnAddressPublic, AcceptAllAdvertisers, CommandTimeoutMs)];
    if !c.parametersOk then Effect(parameters, Failure(SetParametersFailed))
    else if !c.enableOk then Effect(parameters + [EnableScan], Failure(EnableFailed))
    else Effect(parameters + [EnableScan], Success(()))
  }

  /** Enable scanning, then save the socket filter and install the LE meta
      event filter. A failure stops the sequence where it happens. */
  function Start(s: Session, c: Controller): (r: Effect<Session>)
    ensures r.result.Success? <==>
              c.parametersOk && c.enableOk && c.filter.Some? && c.installOk
    ensures forall j :: 0 <= j < |r.ops| && TouchesFilter(r.ops[j]) ==> EnableScan in r.ops[..j]
    ensures !(c.parametersOk && c.enableOk) ==>
              r.result.Failure? && forall op <- r.ops :: !TouchesFilter(op)
    ensures !(c.parametersOk && c.enableOk) ==>
              r.ops == EnableScanMode(s, c).ops && r.result == Failure(EnableScanMode(s, c).result.error)
    ensures !c.parametersOk ==> r.result == Failure(SetParametersFailed)
    ensures c.parametersOk && !c.enableOk ==> r.result == Failure(EnableFailed)
    ensures r.result.Success? ==>
              r.result.value == s.(saved := c.filter) && |r.ops| > 0 && r.ops[|r.ops| - 1] == InstallLeMetaFilter
    ensures forall op <- r.ops :: !op.RestoreFilter? && !op.Deliver? && op != DisableScan
    ensures r.result.Success? ==> Occurrences(r.ops, EnableScan) == 1
    ensures c.parametersOk && c.enableOk && c.filter.None? ==>
              r.result == Failure(GetFilterFailed) && r.ops == EnableScanMode(s, c).ops + [ReadFilter] &&
              InstallLeMetaFilter !in r.ops
    ensures c.parametersOk && c.enableOk && c.filter.Some? ==>
              r.ops == EnableScanMode(s, c).ops + [ReadFilter, InstallLeMetaFilter]
    ensures c.parametersOk && c.enableOk && c.filter.Some? && !c.installOk ==>
              r.result == Failure(SetFilterFailed)
  {
    var enable := EnableScanMode(s, c);
    if enable.result.Failure? then Effect(enable.ops, Failure(enable.result.error))
    else if c.filter.None? then
      EnableBeforeFilter(enable.ops, [ReadFilter]);
      Effect(enable.ops + [ReadFilter], Failure(GetFilterFailed))
    else
      EnableBeforeFilter(enable.ops, [ReadFilter, InstallLeMetaFilter]);
      var ops := enable.ops + [ReadFilter, InstallLeMetaFilter];
      EnableOnce(enable.ops, [ReadFilter, InstallLeMetaFilter]);
      if !c.installOk then Effect(ops, Failure(SetFilterFailed))
      else Effect(ops, Success(s.(saved := c.filter)))
  }

  /** Helper for Start: the scan parameters, the enable command, then calls
      that are not scan commands, enable scanning once. */
  lemma EnableOnce(enable: seq<Op>, later: seq<Op>)
    requires |enable| == 2 && enable[0].SetScanParameters? && enable[1] == EnableScan
    requires EnableScan !in later
    ensures Occurrences(enable + later, EnableScan) == 1
  {
    OccurrencesAppend(enable, later, EnableScan);
    OccurrencesAbsent(later, EnableScan);
    assert enable[1..][1..] == [];
  }

  /** Helper for Start: filter calls made after scanning was enabled come
      after the enable command. */
  lemma EnableBeforeFilter(enable: seq<Op>, later: seq<Op>)
    requires EnableScan in enable && forall op <- enable :: !TouchesFilter(op)
    ensures forall j :: 0 <= j < |enable + later| && TouchesFilter((enable + later)[j]) ==>
              EnableScan in (enable + later)[..j]
  {
    var ops := enable + later;
    forall j | 0 <= j < |ops| && TouchesFilter(ops[j]) ensures EnableScan in ops[..j] {
      if j >= |enable| {
        assert ops[..j][..|enable|] == enable;
      }
    }
  }

  /** Turn scanning off; refused for a session that holds no controller. */
  function DisableScanMode(s: Session, c: Controller): (r: Effect<()>)
    ensures r.result == Failure(NotEnabled) <==> s.desc == NoDescriptor
    ensures s.desc == NoDescriptor ==> r.ops == []
    ensures s.desc != NoDescriptor ==> r.ops == [DisableScan] && (r.result.Success? <==> c.disableOk)
  {
    if s.desc == NoDescriptor then Effect([], Failure(NotEnabled))
    else Effect([DisableScan], if c.disableOk then Success(()) else Failure(DisableFailed))
  }

  /** Put the saved filter back, ignoring the outcome, then disable scanning. */
  function Stop(s: Session, c: Controller): (r: Effect<()>)
    ensures |r.ops| > 0 && r.ops[0] == RestoreFilter(s.saved)
    ensures r.result.Success? <==> s.desc != NoDescriptor && c.disableOk
    ensures s.desc != NoDescriptor ==> r.ops == [RestoreFilter(s.saved), DisableScan]
  {
    var disable := DisableScanMode(s, c);
    Effect([RestoreFilter(s.saved)] + disable.ops, disable.result)
  }

  /** A session made by `Open` holds a controller, so disabling is never
      refused as not enabled. */
  lemma OpenedSessionCanDisable(device: string, devId: int, desc: int, c: Controller)
    requires Open(device, devId, desc).Success?
    ensures DisableScanMode(Open(device, devId, desc).value, c).result != Failure(NotEnabled)
    ensures DisableScanMode(Open(device, devId, desc).value, c).ops == [DisableScan]
  {
  }

  // ---------------------------------------------------------------------
  // The poll loop
  // ---------------------------------------------------------------------

  /** One round of the loop: whether the wait found the controller readable,
      the event a read then returned (empty when the read failed), and the
      clock reading, in seconds, taken after the round. */
  datatype Tick = Tick(readable: bool, event: seq<byte>, now: int)

  /** The deadline rule: a nonzero timeout that has elapsed since `ts`. */
  predicate Expired(timeout: int, ts: int, now: int)
  {
    timeout != 0 && now - ts >= timeout
  }

  /** The decoding step the loop applies to each event it reads; the
      discovery service uses `Report.ProcessInput`, and a subclass may
      override it. */
  type Decoder = seq<byte> -> Option<Report.Advertisement>

  /** The advertisement a round yields, if any. */
  function Sighting(decode: Decoder, t: Tick): Option<Report.Advertisement>
  {
    if t.readable then decode(t.event) else None
  }

  /** The advertisements the rounds `ticks` yield, in order. */
  function Sightings(decode: Decoder, ticks: seq<Tick>): seq<Report.Advertisement>
  {
    if ticks == [] then []
    else (if Sighting(decode, ticks[0]).Some? then [Sighting(decode, ticks[0]).value] else []) + Sightings(decode, ticks[1..])
  }

  /** Address/name pairs of advertisements, in order. */
  function Names(ads: seq<Report.Advertisement>): (ps: seq<(seq<byte>, seq<byte>)>)
    ensures |ps| == |ads|
  {
    seq(|ads|, i requires 0 <= i < |ads| => (ads[i].address, ads[i].name))
  }

  /** The callback deliveries for advertisements, in order. */
  function Deliveries(ads: seq<Report.Advertisement>): (ops: seq<Op>)
    ensures |ops| == |ads|
  {
    seq(|ads|, i requires 0 <= i < |ads| => Deliver(ads[i].address, ads[i]))
  }

  /** The deliveries made for advertisements: none without a callback. */
  function CallbacksFor(callback: bool, ads: seq<Report.Advertisement>): seq<Op>
  {
    if callback then Deliveries(ads) else []
  }

  /** Where the loop ended: after round `index`, or still polling when the
      rounds ran out. */
  datatype Polled = Polled(ops: seq<Op>, found: map<seq<byte>, seq<byte>>, stoppedAt: Option<nat>)

  /** The loop from round `i` on, with the names `found` gathered so far:
      each round handles its event (a delivery to the callback if one is
      registered, the address's name recorded), then checks the deadline. */
  function PollFrom(decode: Decoder, callback: bool, timeout: int, ts: int, ticks: seq<Tick>, i: nat,
                    found: map<seq<byte>, seq<byte>>): (p: Polled)
    requires i <= |ticks|
    ensures p.stoppedAt.Some? ==>
              i <= p.stoppedAt.value < |ticks| && Expired(timeout, ts, ticks[p.stoppedAt.value].now)
    ensures p.stoppedAt.Some? ==>
              forall j :: i <= j < p.stoppedAt.value ==> !Expired(timeout, ts, ticks[j].now)
    ensures p.stoppedAt.None? ==> forall j :: i <= j < |ticks| ==> !Expired(timeout, ts, ticks[j].now)
    decreases |ticks| - i
  {
    if i == |ticks| then Polled([], found, None)
    else
      var seen := Sighting(decode, ticks[i]);
      var delivered := if seen.Some? && callback then [Deliver(seen.value.address, seen.value)] else [];
      var found' := if seen.Some? then found[seen.value.address := seen.value.name] else found;
      if Expired(timeout, ts, ticks[i].now) then Polled(delivered, found', Some(i))
      else
        var rest := PollFrom(decode, callback, timeout, ts, ticks, i + 1, found');
        Polled(delivered + rest.ops, rest.found, rest.stoppedAt)
  }

  /** The whole loop, started at clock reading `ts`. */
  function Poll(decode: Decoder, callback: bool, timeout: int, ts: int, ticks: seq<Tick>): Polled
  {
    PollFrom(decode, callback, timeout, ts, ticks, 0, map[])
  }

  /** The number of rounds the loop handled. */
  function Handled(p: Polled, ticks: seq<Tick>): nat
  {
    if p.stoppedAt.Some? then p.stoppedAt.value + 1 else |ticks|
  }

  /** The advertisements of a round followed by those of the rounds after it. */
  lemma SightingsFront(decode: Decoder, ticks: seq<Tick>, i: nat, n: nat)
    requires i < n <= |ticks|
    ensures Sightings(decode, ticks[i..n])
         == (if Sighting(decode, ticks[i]).Some? then [Sighting(decode, ticks[i]).value] else []) + Sightings(decode, ticks[i + 1..n])
  {
    assert ticks[i..n][0] == ticks[i] && ticks[i..n][1..] == ticks[i + 1..n];
  }

  /** The advertisement a round yields is among those of the rounds. */
  lemma {:induction false} SightingAmong(decode: Decoder, ticks: seq<Tick>, k: nat)
    requires k < |ticks| && Sighting(decode, ticks[k]).Some?
    ensures Sighting(decode, ticks[k]).value in Sightings(decode, ticks)
  {
    if k > 0 {
      assert ticks[1..][k - 1] == ticks[k];
      SightingAmong(decode, ticks[1..], k - 1);
    }
  }

  /** Names and deliveries of a concatenation are the concatenations. */
  lemma NamesAppend(xs: seq<Report.Advertisement>, ys: seq<Report.Advertisement>)
    ensures Names(xs + ys) == Names(xs) + Names(ys)
    ensures Deliveries(xs + ys) == Deliveries(xs) + Deliveries(ys)
  {
  }

  /** Gathering a round's advertisements, then the later ones, is gathering
      them all. */
  lemma GatherSplit(found: map<seq<byte>, seq<byte>>, here: seq<Report.Advertisement>,
                    rest: seq<Report.Advertisement>)
    ensures Assoc.Insert(Assoc.Insert(found, Names(here)), Names(rest))
         == Assoc.Insert(found, Names(here + rest))
  {
    NamesAppend(here, rest);
    Assoc.InsertAppend(found, Names(here), Names(rest));
  }

  /** The loop gathers each address it saw, among the rounds it handled,
      with the name of its last advertisement. */
  lemma {:induction false} PollGathers(decode: Decoder, callback: bool, timeout: int, ts: int, ticks: seq<Tick>, i: nat,
                                       found: map<seq<byte>, seq<byte>>)
    requires i <= |ticks|
    ensures var p := PollFrom(decode, callback, timeout, ts, ticks, i, found);
            i <= Handled(p, ticks) <= |ticks| &&
            p.found == Assoc.Insert(found, Names(Sightings(decode, ticks[i..Handled(p, ticks)])))
    decreases |ticks| - i
  {
    var p := PollFrom(decode, callback, timeout, ts, ticks, i, found);
    var n := Handled(p, ticks);
    if i == |ticks| {
      assert ticks[i..n] == [];
    } else {
      var seen := Sighting(decode, ticks[i]);
      var here: seq<Report.Advertisement> := if seen.Some? then [seen.value] else [];
      var found' := if seen.Some? then found[seen.value.address := seen.value.name] else found;
      assert found' == Assoc.Insert(found, Names(here));
      SightingsFront(decode, ticks, i, n);
      var rest := Sightings(decode, ticks[i + 1..n]);
      if Expired(timeout, ts, ticks[i].now) {
        assert p.found == found' && n == i + 1;
        assert ticks[i + 1..n] == [];
        assert Sightings(decode, ticks[i..n]) == here;
      } else {
        var q := PollFrom(decode, callback, timeout, ts, ticks, i + 1, found');
        assert p.found == q.found && p.stoppedAt == q.stoppedAt;
        PollGathers(decode, callback, timeout, ts, ticks, i + 1, found');
        assert Handled(q, ticks) == n;
        assert q.found == Assoc.Insert(found', Names(rest));
        GatherSplit(found, here, rest);
        assert Sightings(decode, ticks[i..n]) == here + rest;
      }
    }
  }

  /** The loop makes one callback delivery per advertisement among the
      rounds it handled, in order, and none without a callback. */
  lemma {:induction false} PollDelivers(decode: Decoder, callback: bool, timeout: int, ts: int, ticks: seq<Tick>, i: nat,
                                        found: map<seq<byte>, seq<byte>>)
    requires i <= |ticks|
    ensures var p := PollFrom(decode, callback, timeout, ts, ticks, i, found);
            i <= Handled(p, ticks) <= |ticks| &&
            p.ops == CallbacksFor(callback, Sightings(decode, ticks[i..Handled(p, ticks)]))
    decreases |ticks| - i
  {
    var p := PollFrom(decode, callback, timeout, ts, ticks, i, found);
    var n := Handled(p, ticks);
    if i == |ticks| {
      assert ticks[i..n] == [];
    } else {
      var seen := Sighting(decode, ticks[i]);
      var here: seq<Report.Advertisement> := if seen.Some? then [seen.value] else [];
      var found' := if seen.Some? then found[seen.value.address := seen.value.name] else found;
      var delivered := if seen.Some? && callback then [Deliver(seen.value.address, seen.value)] else [];
      assert delivered == CallbacksFor(callback, here);
      SightingsFront(decode, ticks, i, n);
      var rest := Sightings(decode, ticks[i + 1..n]);
      if Expired(timeout, ts, ticks[i].now) {
        assert p.ops == delivered && n == i + 1;
        assert ticks[i + 1..n] == [];
        assert here + rest == here;
      } else {
        var q := PollFrom(decode, callback, timeout, ts, ticks, i + 1, found');
        assert p.ops == delivered + q.ops && p.stoppedAt == q.stoppedAt;
        PollDelivers(decode, callback, timeout, ts, ticks, i + 1, found');
        assert Handled(q, ticks) == n;
        assert q.ops == CallbacksFor(callback, rest);
        NamesAppend(here, rest);
        assert Sightings(decode, ticks[i..n]) == here + rest;
      }
    }
  }

  /** The loop makes no call other than callback deliveries. */
  lemma PollOnlyDelivers(decode: Decoder, callback: bool, timeout: int, ts: int, ticks: seq<Tick>)
    ensures forall op <- Poll(decode, callback, timeout, ts, ticks).ops :: op.Deliver?
  {
    PollDelivers(decode, callback, timeout, ts, ticks, 0, map[]);
  }

  // ---------------------------------------------------------------------
  // discover
  // ---------------------------------------------------------------------

  /** How a discovery ended: with an error, still polling when the rounds
      ran out (the loop had not reached its deadline), or finished with the
      names gathered per address. */
  datatype Outcome =
    | Aborted(error: Error)
    | StillPolling
    | Finished(found: map<seq<byte>, seq<byte>>)

  datatype Run = Run(ops: seq<Op>, outcome: Outcome)

  /** Start, poll until the deadline, stop. A failure while starting ends the
      run at once, without stopping; a failure to disable scanning at the end
      ends it with that error after the filter was restored. What a run does
      is stated by `DiscoverOutcome`, `StoppedRun` and `PollingRun`. */
  function Discover(s: Session, c: Controller, timeout: int, ts: int, ticks: seq<Tick>): Run
  {
    var start := Start(s, c);
    if start.result.Failure? then Run(start.ops, Aborted(start.result.error))
    else
      var session := start.result.value;
      var p := Poll(Report.ProcessInput, session.callback, timeout, ts, ticks);
      if p.stoppedAt.None? then Run(start.ops + p.ops, StillPolling)
      else
        var stop := Stop(session, c);
        var ops := start.ops + p.ops + stop.ops;
        if stop.result.Failure? then Run(ops, Aborted(stop.result.error))
        else Run(ops, Finished(p.found))
  }

  /** How a run ends: a failure while starting aborts it without restoring
      the filter or disabling the scan (and, when enabling failed, without
      touching the filter at all); it finishes only after a round past the
      deadline, so never with timeout 0; it is still polling only when no
      round reached the deadline. */
  lemma DiscoverOutcome(s: Session, c: Controller, timeout: int, ts: int, ticks: seq<Tick>)
    ensures var run := Discover(s, c, timeout, ts, ticks);
            Start(s, c).result.Failure? ==>
              run == Run(Start(s, c).ops, Aborted(Start(s, c).result.error)) &&
              forall op <- run.ops :: !op.RestoreFilter? && op != DisableScan && !op.Deliver?
    ensures var run := Discover(s, c, timeout, ts, ticks);
            !(c.parametersOk && c.enableOk) ==> forall op <- run.ops :: !TouchesFilter(op)
    ensures var run := Discover(s, c, timeout, ts, ticks);
            run.outcome.Finished? ==> exists k :: 0 <= k < |ticks| && Expired(timeout, ts, ticks[k].now)
    ensures var run := Discover(s, c, timeout, ts, ticks);
            run.outcome.StillPolling? ==> forall k :: 0 <= k < |ticks| ==> !Expired(timeout, ts, ticks[k].now)
    ensures timeout == 0 ==> !Discover(s, c, timeout, ts, ticks).outcome.Finished?
  {
    var p := Poll(Report.ProcessInput, s.callback, timeout, ts, ticks);
    if p.stoppedAt.Some? {
      assert Expired(timeout, ts, ticks[p.stoppedAt.value].now);
    }
  }

  /** Helper for FinishedRun: scanning is turned on once, while starting, and
      off once, while stopping. */
  lemma CountScanCommands(start: seq<Op>, polled: seq<Op>, stop: seq<Op>)
    requires Occurrences(start, EnableScan) == 1 && DisableScan !in start
    requires forall op <- polled :: op.Deliver?
    requires |stop| == 2 && stop[0].RestoreFilter? && stop[1] == DisableScan
    ensures Occurrences(start + polled + stop, EnableScan) == 1
    ensures Occurrences(start + polled + stop, DisableScan) == 1
  {
    OccurrencesAppend(start + polled, stop, EnableScan);
    OccurrencesAppend(start + polled, stop, DisableScan);
    OccurrencesAppend(start, polled, EnableScan);
    OccurrencesAppend(start, polled, DisableScan);
    OccurrencesAbsent(polled, EnableScan);
    OccurrencesAbsent(polled, DisableScan);
    OccurrencesAbsent(start, DisableScan);
    assert stop[1..][1..] == [];
    assert Occurrences(stop[1..], EnableScan) == 0 && Occurrences(stop[1..], DisableScan) == 1;
  }

  /** A finished run's result binds each address seen in the handled rounds
      to the name of its last advertisement. */
  lemma FinishedFound(s: Session, c: Controller, timeout: int, ts: int, ticks: seq<Tick>)
    ensures var p := Poll(Report.ProcessInput, s.callback, timeout, ts, ticks);
            var run := Discover(s, c, timeout, ts, ticks);
            run.outcome.Finished? ==>
              Handled(p, ticks) <= |ticks| &&
              run.outcome.found == Assoc.Insert(map[], Names(Sightings(Report.ProcessInput, ticks[..Handled(p, ticks)])))
  {
    var run := Discover(s, c, timeout, ts, ticks);
    if run.outcome.Finished? {
      var p := Poll(Report.ProcessInput, s.callback, timeout, ts, ticks);
      assert Start(s, c).result.value.callback == s.callback;
      PollGathers(Report.ProcessInput, s.callback, timeout, ts, ticks, 0, map[]);
      assert ticks[0..Handled(p, ticks)] == ticks[..Handled(p, ticks)];
    }
  }

  /** A finished run is, in order: the start-up calls, one delivery per
      advertisement among the handled rounds (when a callback is registered),
      the filter restore and the disable command. Its result binds each
      address seen to the name of its last advertisement. */
  lemma FinishedRun(s: Session, c: Controller, timeout: int, ts: int, ticks: seq<Tick>)
    ensures var p := Poll(Report.ProcessInput, s.callback, timeout, ts, ticks);
            var seen := Sightings(Report.ProcessInput, ticks[..Handled(p, ticks)]);
            var run := Discover(s, c, timeout, ts, ticks);
            run.outcome.Finished? ==>
              Handled(p, ticks) <= |ticks| &&
              run.ops == Start(s, c).ops + CallbacksFor(s.callback, seen) + [RestoreFilter(c.filter), DisableScan] &&
              run.outcome.found == Assoc.Insert(map[], Names(seen))
  {
    var run := Discover(s, c, timeout, ts, ticks);
    if run.outcome.Finished? {
      var p := Poll(Report.ProcessInput, s.callback, timeout, ts, ticks);
      assert Start(s, c).result.value.callback == s.callback;
      PollDelivers(Report.ProcessInput, s.callback, timeout, ts, ticks, 0, map[]);
      assert ticks[0..Handled(p, ticks)] == ticks[..Handled(p, ticks)];
      FinishedFound(s, c, timeout, ts, ticks);
    }
  }

  /** A finished run enabled and disabled scanning once each, and ended with
      the disable command. */
  lemma FinishedScansOnce(s: Session, c: Controller, timeout: int, ts: int, ticks: seq<Tick>)
    ensures var run := Discover(s, c, timeout, ts, ticks);
            run.outcome.Finished? ==>
              Occurrences(run.ops, EnableScan) == 1 && Occurrences(run.ops, DisableScan) == 1 &&
              run.ops[|run.ops| - 1] == DisableScan
  {
    var run := Discover(s, c, timeout, ts, ticks);
    if run.outcome.Finished? {
      var start := Start(s, c);
      var p := Poll(Report.ProcessInput, start.result.value.callback, timeout, ts, ticks);
      var stop := Stop(start.result.value, c);
      assert run.ops == start.ops + p.ops + stop.ops;
      PollOnlyDelivers(Report.ProcessInput, start.result.value.callback, timeout, ts, ticks);
      CountScanCommands(start.ops, p.ops, stop.ops);
    }
  }

  /** A run whose loop reached its deadline: the start-up calls, one delivery
      per advertisement among the handled rounds (when a callback is
      registered), then the teardown. With a controller, the teardown restores
      the filter and disables scanning, and the run finishes exactly when the
      disable succeeds, failing with `DisableFailed` otherwise; without one,
      the filter is restored and the disable is refused. */
  lemma StoppedRun(s: Session, c: Controller, timeout: int, ts: int, ticks: seq<Tick>)
    requires Start(s, c).result.Success?
    requires Poll(Report.ProcessInput, s.callback, timeout, ts, ticks).stoppedAt.Some?
    ensures var p := Poll(Report.ProcessInput, s.callback, timeout, ts, ticks);
            var seen := Sightings(Report.ProcessInput, ticks[..Handled(p, ticks)]);
            var run := Discover(s, c, timeout, ts, ticks);
            s.desc != NoDescriptor ==>
              run.ops == Start(s, c).ops + CallbacksFor(s.callback, seen) + [RestoreFilter(c.filter), DisableScan]
    ensures var run := Discover(s, c, timeout, ts, ticks);
            s.desc != NoDescriptor ==> (run.outcome.Finished? <==> c.disableOk)
    ensures var run := Discover(s, c, timeout, ts, ticks);
            s.desc != NoDescriptor && !c.disableOk ==> run.outcome == Aborted(DisableFailed)
    ensures var p := Poll(Report.ProcessInput, s.callback, timeout, ts, ticks);
            var seen := Sightings(Report.ProcessInput, ticks[..Handled(p, ticks)]);
            var run := Discover(s, c, timeout, ts, ticks);
            s.desc == NoDescriptor ==>
              run.ops == Start(s, c).ops + CallbacksFor(s.callback, seen) + [RestoreFilter(c.filter)] &&
              run.outcome == Aborted(NotEnabled)
  {
    var p := Poll(Report.ProcessInput, s.callback, timeout, ts, ticks);
    assert Start(s, c).result.value.callback == s.callback;
    assert Start(s, c).result.value.desc == s.desc;
    PollDelivers(Report.ProcessInput, s.callback, timeout, ts, ticks, 0, map[]);
    assert ticks[0..Handled(p, ticks)] == ticks[..Handled(p, ticks)];
  }

  /** A run whose loop never reached its deadline: the start-up calls and one
      delivery per advertisement among all the rounds, with no teardown. */
  lemma PollingRun(s: Session, c: Controller, timeout: int, ts: int, ticks: seq<Tick>)
    requires Start(s, c).result.Success?
    requires Poll(Report.ProcessInput, s.callback, timeout, ts, ticks).stoppedAt.None?
    ensures Discover(s, c, timeout, ts, ticks)
         == Run(Start(s, c).ops + CallbacksFor(s.callback, Sightings(Report.ProcessInput, ticks)), StillPolling)
  {
    assert Start(s, c).result.value.callback == s.callback;
    PollDelivers(Report.ProcessInput, s.callback, timeout, ts, ticks, 0, map[]);
    assert ticks[0..|ticks|] == ticks;
  }

  /** Helper for FoundSightings: the address of an advertisement among
      `seen` is a key of the names gathered from them. */
  lemma NameGathered(seen: seq<Report.Advertisement>, ad: Report.Advertisement)
    requires ad in seen
    ensures ad.address in Assoc.Insert(map[], Names(seen))
  {
    var i :| 0 <= i < |seen| && seen[i] == ad;
    assert Names(seen)[i].0 == ad.address;
    Assoc.InsertKeys(map[], Names(seen));
  }

  /** A finished run's result holds the address of every advertisement read
      in a round the loop handled. */
  lemma FoundSightings(s: Session, c: Controller, timeout: int, ts: int, ticks: seq<Tick>, k: nat)
    requires Discover(s, c, timeout, ts, ticks).outcome.Finished?
    requires k < |ticks| && k < Handled(Poll(Report.ProcessInput, s.callback, timeout, ts, ticks), ticks)
    requires Sighting(Report.ProcessInput, ticks[k]).Some?
    ensures Sighting(Report.ProcessInput, ticks[k]).value.address in Discover(s, c, timeout, ts, ticks).outcome.found
  {
    var n := Handled(Poll(Report.ProcessInput, s.callback, timeout, ts, ticks), ticks);
    FinishedFound(s, c, timeout, ts, ticks);
    assert ticks[..n][k] == ticks[k];
    SightingAmong(Report.ProcessInput, ticks[..n], k);
    NameGathered(Sightings(Report.ProcessInput, ticks[..n]), Sighting(Report.ProcessInput, ticks[k]).value);
  }
}

=== FILE: eir.dfy ===
/** The Extended Inquiry Response / Advertising Data record stream
    (Bluetooth Core Specification v4.x, Vol 3, Part C, section 11): a run of
    records, each a length byte L, then a type byte, then L - 1 value bytes.
    The walk stops at a zero length byte, at a record that does not fit in the
    buffer, or at the end of the buffer; truncation is end-of-data, never an
    error. */
module Eir {
  import opened Wrappers
  import Assoc

  /** An unsigned 8-bit value, kept as an integer because the walk does
      integer arithmetic on it (offset + length). */
  type byte = b: int | 0 <= b < 256

  const NameShort: byte := 0x08
  const NameComplete: byte := 0x09

  /** The record types the header names. */
  datatype ScanEntryType =
    | Flags
    | Incomplete16BServices
    | Complete16BServices
    | Incomplete32BServices
    | Complete32BServices
    | Incomplete128BServices
    | Complete128BServices
    | ShortLocalName
    | CompleteLocalName
    | TxPower
    | ServiceSolicitation16B
    | ServiceSolicitation32B
    | ServiceSolicitation128B
    | ServiceData16B
    | ServiceData32B
    | ServiceData128B
    | PublicTargetAddress
    | RandomTargetAddress
    | Appearance
    | AdvertisingInterval
    | Manufacturer

  /** The type byte that stands for `t` on the air. */
  function Code(t: ScanEntryType): byte
  {
    match t
    case Flags => 0x01
    case Incomplete16BServices => 0x02
    case Complete16BServices => 0x03
    case Incomplete32BServices => 0x04
    case Complete32BServices => 0x05
    case Incomplete128BServices => 0x06
    case Complete128BServices => 0x07
    case ShortLocalName => NameShort
    case CompleteLocalName => NameComplete
    case TxPower => 0x0A
    case ServiceSolicitation16B => 0x14
    case ServiceSolicitation32B => 0x1F
    case ServiceSolicitation128B => 0x15
    case ServiceData16B => 0x16
    case ServiceData32B => 0x20
    case ServiceData128B => 0x21
    case PublicTargetAddress => 0x17
    case RandomTargetAddress => 0x18
    case Appearance => 0x19
    case AdvertisingInterval => 0x1A
    case Manufacturer => 0xFF
  }

  /** The named record type a type byte stands for, if any. */
  function EntryType(b: byte): (r: Option<ScanEntryType>)
    ensures r.Some? ==> Code(r.value) == b
    ensures r.None? ==> forall t :: Code(t) != b
  {
    match b
    case 0x01 => Some(Flags)
    case 0x02 => Some(Incomplete16BServices)
    case 0x03 => Some(Complete16BServices)
    case 0x04 => Some(Incomplete32BServices)
    case 0x05 => Some(Complete32BServices)
    case 0x06 => Some(Incomplete128BServices)
    case 0x07 => Some(Complete128BServices)
    case 0x08 => Some(ShortLocalName)
    case 0x09 => Some(CompleteLocalName)
    case 0x0A => Some(TxPower)
    case 0x14 => Some(ServiceSolicitation16B)
    case 0x1F => Some(ServiceSolicitation32B)
    case 0x15 => Some(ServiceSolicitation128B)
    case 0x16 => Some(ServiceData16B)
    case 0x20 => Some(ServiceData32B)
    case 0x21 => Some(ServiceData128B)
    case 0x17 => Some(PublicTargetAddress)
    case 0x18 => Some(RandomTargetAddress)
    case 0x19 => Some(Appearance)
    case 0x1A => Some(AdvertisingInterval)
    case 0xFF => Some(Manufacturer)
    case _ => None
  }

  /** Distinct record types have distinct codes: decoding a code gives the type back. */
  lemma CodeRoundTrip(t: ScanEntryType)
    ensures EntryType(Code(t)) == Some(t)
  {
    match t
    case Flags =>
    case Incomplete16BServices =>
    case Complete16BServices =>
    case Incomplete32BServices =>
    case Complete32BServices =>
    case Incomplete128BServices =>
    case Complete128BServices =>
    case ShortLocalName =>
    case CompleteLocalName =>
    case TxPower =>
    case ServiceSolicitation16B =>
    case ServiceSolicitation32B =>
    case ServiceSolicitation128B =>
    case ServiceData16B =>
    case ServiceData32B =>
    case ServiceData128B =>
    case PublicTargetAddress =>
    case RandomTargetAddress =>
    case Appearance =>
    case AdvertisingInterval =>
    case Manufacturer =>
  }

  /** The two local-name record types. */
  predicate IsNameTag(tag: byte)
  {
    tag == NameShort || tag == NameComplete
  }

  /** One decoded record: its type byte and its value bytes. */
  datatype Record = Record(tag: byte, value: seq<byte>)

  /** A record starts at the front of `eir`: its length byte is nonzero and
      the length byte plus L further bytes lie inside the buffer. */
  predicate Fits(eir: seq<byte>)
  {
    |eir| > 0 && eir[0] != 0 && 1 + eir[0] <= |eir|
  }

  /** The bytes after the record at the front of `eir`. */
  function Rest(eir: seq<byte>): (rest: seq<byte>)
    requires Fits(eir)
    ensures |rest| + 2 <= |eir|
  {
    eir[1 + eir[0]..]
  }

  /** Every record whose value fits a one-byte length (1 + |value| <= 255). */
  predicate WellFormed(rs: seq<Record>)
  {
    forall i :: 0 <= i < |rs| ==> |rs[i].value| <= 254
  }

  /** The wire form of one record. */
  function EncodeRecord(r: Record): seq<byte>
    requires |r.value| <= 254
  {
    [1 + |r.value|, r.tag] + r.value
  }

  /** The wire form of a run of records. */
  function Encode(rs: seq<Record>): (bytes: seq<byte>)
    requires WellFormed(rs)
    ensures |bytes| >= 2 * |rs|
  {
    if rs == [] then [] else EncodeRecord(rs[0]) + Encode(rs[1..])
  }

  /** The well-formed records at the front of `eir`, in order, up to the first
      zero length byte, the first record that overruns, or the end. */
  function Records(eir: seq<byte>): (rs: seq<Record>)
    ensures WellFormed(rs)
    ensures Encode(rs) <= eir
    decreases |eir|
  {
    if !Fits(eir) then []
    else
      var r := Record(eir[1], eir[2..1 + eir[0]]);
      var rest := Records(Rest(eir));
      assert EncodeRecord(r) == eir[..1 + eir[0]];
      assert ([r] + rest)[1..] == rest;
      [r] + rest
  }

  /** The value of the first name record of `rs`, or the empty name. */
  function FirstName(rs: seq<Record>): seq<byte>
  {
    if rs == [] then []
    else if IsNameTag(rs[0].tag) then rs[0].value
    else FirstName(rs[1..])
  }

  /** The local name advertised in `eir`: the value of the first shortened or
      complete local-name record met by the walk, or the empty name when the
      walk ends first. */
  function ParseName(eir: seq<byte>): (name: seq<byte>)
    ensures |eir| > 0 && eir[0] == 0 ==> name == []
    ensures |name| <= 254 && (name != [] ==> |name| + 2 <= |eir|)
    decreases |eir|
  {
    if !Fits(eir) then []
    else if IsNameTag(eir[1]) then eir[2..1 + eir[0]]
    else ParseName(Rest(eir))
  }

  /** The (type, value) pairs of `rs`, in order. */
  function Pairs(rs: seq<Record>): (ps: seq<(byte, seq<byte>)>)
    ensures |ps| == |rs|
  {
    seq(|rs|, i requires 0 <= i < |rs| => (rs[i].tag, rs[i].value))
  }

  /** The record types present in `rs`. */
  function Tags(rs: seq<Record>): set<byte>
  {
    set i | 0 <= i < |rs| :: rs[i].tag
  }

  /** No record of `rs` after position `i` has the type of record `i`. */
  predicate IsLastOfType(rs: seq<Record>, i: int)
    requires 0 <= i < |rs|
  {
    forall j :: i < j < |rs| ==> rs[j].tag != rs[i].tag
  }

  /** The field dictionary of `eir`: each well-formed record's type mapped to
      its value, inserted in the order the walk meets the records. */
  function FieldMap(eir: seq<byte>): map<byte, seq<byte>>
  {
    Assoc.Insert(map[], Pairs(Records(eir)))
  }

  /** The dictionary holds one entry per record type the walk meets, bound to
      the value of the last record of that type. */
  lemma FieldMapContents(eir: seq<byte>)
    ensures FieldMap(eir).Keys == Tags(Records(eir))
    ensures forall i :: 0 <= i < |Records(eir)| && IsLastOfType(Records(eir), i) ==>
              FieldMap(eir)[Records(eir)[i].tag] == Records(eir)[i].value
  {
    var rs := Records(eir);
    var ps := Pairs(rs);
    Assoc.InsertKeys(map[], ps);
    assert Assoc.KeysOf(ps) == Tags(rs) by {
      forall k | k in Tags(rs) ensures k in Assoc.KeysOf(ps) {
        var i :| 0 <= i < |rs| && rs[i].tag == k;
        assert ps[i].0 == k;
      }
    }
    LastOfTypeInsert(rs);
  }

  /** Helper for FieldMap: the last record of each type wins the insertion. */
  lemma LastOfTypeInsert(rs: seq<Record>)
    ensures forall i :: 0 <= i < |rs| && IsLastOfType(rs, i) ==>
              rs[i].tag in Assoc.Insert(map[], Pairs(rs)) &&
              Assoc.Insert(map[], Pairs(rs))[rs[i].tag] == rs[i].value
  {
    var ps := Pairs(rs);
    forall i | 0 <= i < |rs| && IsLastOfType(rs, i)
      ensures rs[i].tag in Assoc.Insert(map[], ps) && Assoc.Insert(map[], ps)[rs[i].tag] == rs[i].value
    {
      assert Assoc.IsLast(ps, i) by {
        forall j | i < j < |ps| ensures ps[j].0 != ps[i].0 {
          assert ps[j].0 == rs[j].tag;
        }
      }
      Assoc.InsertLast(map[], ps, i);
    }
  }

  // ---------------------------------------------------------------------
  // Lemmas relating the walk to the wire form
  // ---------------------------------------------------------------------

  /** The walk reads an encoded record back from the front of the bytes. */
  lemma DecodeFront(r: Record, after: seq<byte>)
    requires |r.value| <= 254
    ensures 2 + |r.value| <= |EncodeRecord(r) + after| && (EncodeRecord(r) + after)[0] == 1 + |r.value|
    ensures Fits(EncodeRecord(r) + after)
    ensures (EncodeRecord(r) + after)[1] == r.tag
    ensures (EncodeRecord(r) + after)[2..2 + |r.value|] == r.value
    ensures (EncodeRecord(r) + after)[2 + |r.value|..] == after
    ensures Rest(EncodeRecord(r) + after) == after
  {
    var eir := EncodeRecord(r) + after;
    assert eir[0] == 1 + |r.value|;
    assert eir[2 + |r.value|..] == after;
  }

  /** A slice of a slice is a slice. */
  lemma SliceOfSlice(data: seq<byte>, lo: nat, hi: nat, a: nat, b: nat)
    requires lo <= hi <= |data| && a <= b <= hi - lo
    ensures data[lo..hi][a..b] == data[lo + a..lo + b]
  {
    var inner := data[lo..hi][a..b];
    var outer := data[lo + a..lo + b];
    assert |inner| == |outer|;
    forall j | 0 <= j < |inner| ensures inner[j] == outer[j] {
      assert inner[j] == data[lo..hi][a + j] == data[lo + a + j];
    }
  }

  /** The walk unfolded once: the record at the front, then the records after it. */
  lemma RecordsFront(eir: seq<byte>)
    requires Fits(eir)
    ensures Records(eir) == [Record(eir[1], eir[2..1 + eir[0]])] + Records(Rest(eir))
  {
  }

  /** Decoding an encoded run of records, followed by bytes that do not start
      a record, gives the records back. */
  lemma {:induction false} RecordsOfEncode(rs: seq<Record>, tail: seq<byte>)
    requires WellFormed(rs) && !Fits(tail)
    ensures Records(Encode(rs) + tail) == rs
    decreases |rs|
  {
    if rs == [] {
      assert Encode(rs) + tail == tail;
    } else {
      var after := Encode(rs[1..]) + tail;
      var eir := EncodeRecord(rs[0]) + after;
      assert Encode(rs) + tail == eir;
      DecodeFront(rs[0], after);
      RecordsFront(eir);
      RecordsOfEncode(rs[1..], tail);
      assert rs == [rs[0]] + rs[1..];
    }
  }

  /** The walk stops exactly where the bytes after its records no longer start
      a record. */
  lemma {:induction false} RecordsStop(eir: seq<byte>)
    ensures !Fits(eir[|Encode(Records(eir))|..])
    decreases |eir|
  {
    if Fits(eir) {
      var rs := Records(eir);
      var r := rs[0];
      assert rs[1..] == Records(Rest(eir));
      assert |Encode(rs)| == 1 + eir[0] + |Encode(Records(Rest(eir)))|;
      RecordsStop(Rest(eir));
      assert eir[|Encode(rs)|..] == Rest(eir)[|Encode(Records(Rest(eir)))|..];
    }
  }

  /** The name is the value of the first name record the walk decodes. */
  lemma {:induction false} ParseNameFirstName(eir: seq<byte>)
    ensures ParseName(eir) == FirstName(Records(eir))
    decreases |eir|
  {
    if Fits(eir) {
      var rs := Records(eir);
      assert rs[0].tag == eir[1];
      assert rs[1..] == Records(Rest(eir));
      ParseNameFirstName(Rest(eir));
    }
  }

  /** Once a well-formed name record has been met, the bytes after it do not
      matter: the name is that record's value even if the rest is garbage. */
  lemma {:induction false} ParseNameOfEncode(rs: seq<Record>, more: seq<byte>)
    requires WellFormed(rs)
    requires exists i :: 0 <= i < |rs| && IsNameTag(rs[i].tag)
    ensures ParseName(Encode(rs) + more) == FirstName(rs)
    decreases |rs|
  {
    var after := Encode(rs[1..]) + more;
    var eir := EncodeRecord(rs[0]) + after;
    assert Encode(rs) + more == eir;
    DecodeFront(rs[0], after);
    if !IsNameTag(rs[0].tag) {
      var i :| 0 <= i < |rs| && IsNameTag(rs[i].tag);
      assert rs[1..][i - 1] == rs[i];
      ParseNameOfEncode(rs[1..], more);
    }
  }

  /** With no name record before the walk ends, the name is empty. */
  lemma {:induction false} ParseNameWithoutName(rs: seq<Record>, tail: seq<byte>)
    requires WellFormed(rs) && !Fits(tail)
    requires forall i :: 0 <= i < |rs| ==> !IsNameTag(rs[i].tag)
    ensures ParseName(Encode(rs) + tail) == []
  {
    RecordsOfEncode(rs, tail);
    ParseNameFirstName(Encode(rs) + tail);
    FirstNameAbsent(rs);
  }

  /** The first-name search finds nothing in records without a name type. */
  lemma {:induction false} FirstNameAbsent(rs: seq<Record>)
    requires forall i :: 0 <= i < |rs| ==> !IsNameTag(rs[i].tag)
    ensures FirstName(rs) == []
    decreases |rs|
  {
    if rs != [] {
      assert !IsNameTag(rs[0].tag);
      forall i | 0 <= i < |rs[1..]| ensures !IsNameTag(rs[1..][i].tag) {
        assert rs[1..][i] == rs[i + 1];
      }
      FirstNameAbsent(rs[1..]);
    }
  }

  /** A record whose declared length overruns the buffer ends the walk: the
      name and the field dictionary see nothing from it or after it. */
  lemma {:induction false} OverrunEndsWalk(rs: seq<Record>, tail: seq<byte>)
    requires WellFormed(rs)
    requires |tail| > 0 && 1 + tail[0] > |tail|
    ensures Records(Encode(rs) + tail) == rs
    ensures FieldMap(Encode(rs) + tail) == FieldMap(Encode(rs))
  {
    RecordsOfEncode(rs, tail);
    assert Encode(rs) + [] == Encode(rs);
    RecordsOfEncode(rs, []);
  }

  /** Inserting the records found from `offset` on is inserting the record
      at `offset`, then the records from `next`, the offset after it. */
  lemma {:induction false} InsertRecordAt(m: map<byte, seq<byte>>, eir: seq<byte>, offset: nat, next: nat)
    requires offset < |eir| && eir[offset] != 0 && next == offset + 1 + eir[offset] <= |eir|
    ensures Assoc.Insert(m, Pairs(Records(eir[offset..])))
         == Assoc.Insert(m[eir[offset + 1] := eir[offset + 2..next]], Pairs(Records(eir[next..])))
  {
    var here := eir[offset..];
    assert Fits(here);
    assert Rest(here) == eir[next..];
    var r := Record(here[1], here[2..1 + here[0]]);
    assert r == Record(eir[offset + 1], eir[offset + 2..next]);
    RecordsFront(here);
    PairsCons(r, Records(Rest(here)));
    var ps := Pairs(Records(Rest(here)));
    assert ([(r.tag, r.value)] + ps)[1..] == ps;
  }

  /** The pairs of a record followed by more records. */
  lemma PairsCons(r: Record, rs: seq<Record>)
    ensures Pairs([r] + rs) == [(r.tag, r.value)] + Pairs(rs)
  {
  }

  /** Where no record starts, there is nothing left to insert. */
  lemma InsertNothingAt(m: map<byte, seq<byte>>, eir: seq<byte>, offset: nat)
    requires offset <= |eir|
    requires offset == |eir| || eir[offset] == 0 || offset + 1 + eir[offset] > |eir|
    ensures Assoc.Insert(m, Pairs(Records(eir[offset..]))) == m
  {
    assert !Fits(eir[offset..]);
  }

  // ---------------------------------------------------------------------
  // The loops of the source, over explicit offsets
  // ---------------------------------------------------------------------

  /** The name walk with a running offset into the buffer: every byte it
      reads lies below |eir|, and each round advances the offset by L + 1 >= 2. */
  method FindName(eir: seq<byte>) returns (name: seq<byte>)
    ensures name == ParseName(eir)
  {
    var offset := 0;
    assert eir[offset..] == eir;
    while offset < |eir|
      invariant 0 <= offset <= |eir|
      invariant ParseName(eir[offset..]) == ParseName(eir)
      decreases |eir| - offset
    {
      var fieldLen := eir[offset];
      if fieldLen == 0 || offset + 1 + fieldLen > |eir| {
        return [];
      }
      if IsNameTag(eir[offset + 1]) {
        return eir[offset + 2..offset + 1 + fieldLen];
      }
      assert Rest(eir[offset..]) == eir[offset + fieldLen + 1..];
      offset := offset + fieldLen + 1;
    }
    return [];
  }

  /** The field-dictionary walk with a running offset into the buffer. */
  method CollectFields(eir: seq<byte>) returns (fields: map<byte, seq<byte>>)
    ensures fields == FieldMap(eir)
  {
    fields := map[];
    var offset := 0;
    assert eir[offset..] == eir;
    while offset < |eir|
      invariant 0 <= offset <= |eir|
      invariant Assoc.Insert(fields, Pairs(Records(eir[offset..]))) == FieldMap(eir)
      decreases |eir| - offset
    {
      var fieldLen := eir[offset];
      if fieldLen == 0 || offset + 1 + fieldLen > |eir| {
        break;
      }
      var next := offset + 1 + fieldLen;
      InsertRecordAt(fields, eir, offset, next);
      fields := fields[eir[offset + 1] := eir[offset + 2..next]];
      offset := next;
    }
    InsertNothingAt(fields, eir, offset);
  }
}

=== FILE: report.dfy ===
/** One raw controller event, as read from the HCI socket, turned into an
    advertisement: the LE Meta Event of Bluetooth Core Specification v4.x,
    Vol 2, Part E, section 7.7.65, with the LE Advertising Report sub-event
    (section 7.7.65.2). Byte layout of the buffer:

      0       packet indicator (HCI event packet)
      1..2    event header: event code, parameter length
      3       sub-event code
      4       number of reports (only the first report is decoded)
      5       event type of the report
      6       address type
      7..12   device address, as sent (least significant byte first)
      13      length L of the advertising data
      14..    L bytes of advertising data (the EIR record stream)
      14 + L  RSSI, a signed byte
*/
module Report {
  import opened Wrappers
  import opened Eir
  import Assoc

  const EventHeaderSize: nat := 2
  const SubeventIndex: nat := EventHeaderSize + 1
  const LeMetaEvent: byte := 0x3E
  const LeAdvertisingReport: byte := 0x02
  const AddressIndex: nat := SubeventIndex + 4
  const AddressSize: nat := 6
  const LengthIndex: nat := AddressIndex + AddressSize
  const DataIndex: nat := LengthIndex + 1

  /** The raw RSSI byte a controller sends when no RSSI is available. */
  const RssiUnavailable: byte := 0x99
  /** The value such a sentinel is reported as. */
  const RssiNotAvailable: int := 127

  /** What one advertising report tells about a device. */
  datatype Advertisement = Advertisement(
    address: seq<byte>,
    name: seq<byte>,
    rssi: int,
    fields: map<byte, seq<byte>>)

  /** The RSSI byte read as a signed two's-complement value, the sentinel
      0x99 becoming 127. */
  function Rssi(raw: byte): (r: int)
    ensures -128 <= r <= 127
    ensures raw == RssiUnavailable ==> r == RssiNotAvailable
    ensures raw != RssiUnavailable ==> (r - raw) % 256 == 0
  {
    if raw == RssiUnavailable then RssiNotAvailable
    else if raw < 128 then raw
    else raw - 256
  }

  /** The event carries the advertising-report sub-event. */
  predicate IsAdvertisingReport(event: seq<byte>)
  {
    |event| > SubeventIndex && event[SubeventIndex] == LeAdvertisingReport
  }

  /** The event is long enough to hold the length byte, the advertising data
      it announces and the RSSI byte after it. */
  predicate ReportFits(event: seq<byte>)
  {
    |event| > LengthIndex && DataIndex + event[LengthIndex] < |event|
  }

  /** The advertising data of a report that fits. */
  function AdvertisingData(event: seq<byte>): (eir: seq<byte>)
    requires ReportFits(event)
    ensures |eir| == event[LengthIndex]
  {
    event[DataIndex..DataIndex + event[LengthIndex]]
  }

  /** The advertisement an event reports, or nothing: nothing for any other
      sub-event, and nothing when the buffer is too short for the report it
      announces. */
  function ProcessInput(event: seq<byte>): (r: Option<Advertisement>)
    ensures !IsAdvertisingReport(event) ==> r == None
    ensures r.Some? <==> IsAdvertisingReport(event) && ReportFits(event)
    ensures r.Some? ==> |r.value.address| == AddressSize && -128 <= r.value.rssi <= 127
  {
    if !IsAdvertisingReport(event) then None
    else if !ReportFits(event) then None
    else
      var eir := AdvertisingData(event);
      Some(Advertisement(
        event[AddressIndex..AddressIndex + AddressSize],
        ParseName(eir),
        Rssi(event[DataIndex + event[LengthIndex]]),
        FieldMap(eir)))
  }

  /** An event whose first report is of event type `evtType` from `address`,
      of address type `addrType`, carrying the advertising data `eir` and the
      raw RSSI byte `raw`. `header` is the packet indicator and the event
      header, `count` the number of reports, and `more` whatever follows the
      first report (further reports of a multi-report event, or nothing);
      decoding reads none of these. */
  function EncodeReport(header: seq<byte>, count: byte, evtType: byte, addrType: byte, address: seq<byte>,
                        eir: seq<byte>, raw: byte, more: seq<byte>): (event: seq<byte>)
    requires |header| == EventHeaderSize + 1 && |address| == AddressSize && |eir| < 256
    ensures |event| == DataIndex + |eir| + 1 + |more|
  {
    header + [LeAdvertisingReport, count, evtType, addrType] + address + [|eir|] + eir + [raw] + more
  }

  /** Where the parts of an encoded report sit in the event. */
  lemma EncodeReportLayout(header: seq<byte>, count: byte, evtType: byte, addrType: byte, address: seq<byte>,
                           eir: seq<byte>, raw: byte, more: seq<byte>)
    requires |header| == EventHeaderSize + 1 && |address| == AddressSize && |eir| < 256
    ensures var event := EncodeReport(header, count, evtType, addrType, address, eir, raw, more);
            IsAdvertisingReport(event) && ReportFits(event)
    ensures var event := EncodeReport(header, count, evtType, addrType, address, eir, raw, more);
            event[AddressIndex..AddressIndex + AddressSize] == address
    ensures var event := EncodeReport(header, count, evtType, addrType, address, eir, raw, more);
            ReportFits(event) && AdvertisingData(event) == eir
    ensures var event := EncodeReport(header, count, evtType, addrType, address, eir, raw, more);
            event[DataIndex + |eir|] == raw
  {
    var head := header + [LeAdvertisingReport, count, evtType, addrType];
    var event := EncodeReport(header, count, evtType, addrType, address, eir, raw, more);
    assert event == head + address + [|eir|] + eir + [raw] + more;
    assert event[SubeventIndex] == head[SubeventIndex];
    assert event[LengthIndex] == |eir|;
    assert event[AddressIndex..AddressIndex + AddressSize] == address;
    assert event[DataIndex..DataIndex + |eir|] == eir;
  }

  /** Every event the decoder accepts is the encoding of its own parts. */
  lemma EveryReportEncoded(event: seq<byte>)
    requires IsAdvertisingReport(event) && ReportFits(event)
    ensures var L := event[LengthIndex];
            event == EncodeReport(event[..SubeventIndex], event[SubeventIndex + 1], event[SubeventIndex + 2],
                                  event[SubeventIndex + 3], event[AddressIndex..AddressIndex + AddressSize],
                                  event[DataIndex..DataIndex + L], event[DataIndex + L], event[DataIndex + L + 1..])
  {
    var L := event[LengthIndex];
    var e := EncodeReport(event[..SubeventIndex], event[SubeventIndex + 1], event[SubeventIndex + 2],
                          event[SubeventIndex + 3], event[AddressIndex..AddressIndex + AddressSize],
                          event[DataIndex..DataIndex + L], event[DataIndex + L], event[DataIndex + L + 1..]);
    assert |e| == |event|;
    assert forall i :: 0 <= i < |event| ==> e[i] == event[i];
  }

  /** Decoding an event gives back its first report's address and RSSI, with
      the name and the dictionary the walk finds in its advertising data,
      whatever the event header, the report count, the event and address
      types, and the bytes after the report. */
  lemma {:induction false} ReportDecode(header: seq<byte>, count: byte, evtType: byte, addrType: byte,
                                        address: seq<byte>, eir: seq<byte>, raw: byte, more: seq<byte>)
    requires |header| == EventHeaderSize + 1 && |address| == AddressSize && |eir| < 256
    ensures ProcessInput(EncodeReport(header, count, evtType, addrType, address, eir, raw, more)).Some?
    ensures ProcessInput(EncodeReport(header, count, evtType, addrType, address, eir, raw, more)).value
         == Advertisement(address, ParseName(eir), Rssi(raw), FieldMap(eir))
  {
    EncodeReportLayout(header, count, evtType, addrType, address, eir, raw, more);
  }

  /** Decoding an encoded report whose data is a run of records gives back
      its address, the first name among its records, its RSSI and the
      dictionary its records build. */
  lemma {:induction false} ReportRoundTrip(header: seq<byte>, count: byte, evtType: byte, addrType: byte,
                                           address: seq<byte>, rs: seq<Record>, raw: byte, more: seq<byte>)
    requires |header| == EventHeaderSize + 1 && |address| == AddressSize && WellFormed(rs) && |Encode(rs)| < 256
    ensures ProcessInput(EncodeReport(header, count, evtType, addrType, address, Encode(rs), raw, more)).Some?
    ensures ProcessInput(EncodeReport(header, count, evtType, addrType, address, Encode(rs), raw, more)).value
         == Advertisement(address, FirstName(rs), Rssi(raw), Assoc.Insert(map[], Pairs(rs)))
  {
    var eir := Encode(rs);
    ReportDecode(header, count, evtType, addrType, address, eir, raw, more);
    assert eir + [] == eir;
    RecordsOfEncode(rs, []);
    ParseNameFirstName(eir);
  }

  /** A flags record and a complete-name record "Test" from AA:BB:CC:DD:EE:FF
      (sent least significant byte first), RSSI unavailable. */
  lemma ExampleReport()
    ensures ProcessInput([0x04, 0x3E, 0x15, 0x02, 0x01, 0x00, 0x00,
                          0xFF, 0xEE, 0xDD, 0xCC, 0xBB, 0xAA, 0x09,
                          0x02, 0x01, 0x06,
                          0x05, 0x09, 0x54, 0x65, 0x73, 0x74,
                          0x99])
         == Some(Advertisement([0xFF, 0xEE, 0xDD, 0xCC, 0xBB, 0xAA],
                               [0x54, 0x65, 0x73, 0x74],
                               127,
                               map[0x01 := [0x06], 0x09 := [0x54, 0x65, 0x73, 0x74]]))
  {
    var address: seq<byte> := [0xFF, 0xEE, 0xDD, 0xCC, 0xBB, 0xAA];
    var name: seq<byte> := [0x54, 0x65, 0x73, 0x74];
    var rs := [Record(0x01, [0x06]), Record(0x09, name)];
    var event: seq<byte> := [0x04, 0x3E, 0x15, 0x02, 0x01, 0x00, 0x00,
                             0xFF, 0xEE, 0xDD, 0xCC, 0xBB, 0xAA, 0x09,
                             0x02, 0x01, 0x06,
                             0x05, 0x09, 0x54, 0x65, 0x73, 0x74,
                             0x99];
    ExampleEvent(address, rs, name, event);
    ReportRoundTrip([0x04, 0x3E, 0x15], 0x01, 0x00, 0x00, address, rs, 0x99, []);
    assert FirstName(rs) == name;
    assert Rssi(0x99) == 127;
    ExampleFields(rs, name);
    assert ProcessInput(event) == Some(Advertisement(address, name, 127, map[0x01 := [0x06], 0x09 := name]));
  }

  /** The example's event is the encoding of its report. */
  lemma ExampleEvent(address: seq<byte>, rs: seq<Record>, name: seq<byte>, event: seq<byte>)
    requires address == [0xFF, 0xEE, 0xDD, 0xCC, 0xBB, 0xAA]
    requires name == [0x54, 0x65, 0x73, 0x74] && rs == [Record(0x01, [0x06]), Record(0x09, name)]
    requires event == [0x04, 0x3E, 0x15, 0x02, 0x01, 0x00, 0x00,
                       0xFF, 0xEE, 0xDD, 0xCC, 0xBB, 0xAA, 0x09,
                       0x02, 0x01, 0x06,
                       0x05, 0x09, 0x54, 0x65, 0x73, 0x74,
                       0x99]
    ensures WellFormed(rs) && |Encode(rs)| < 256
    ensures event == EncodeReport([0x04, 0x3E, 0x15], 0x01, 0x00, 0x00, address, Encode(rs), 0x99, [])
  {
    ExampleEncoding(rs, name);
    assert EncodeReport([0x04, 0x3E, 0x15], 0x01, 0x00, 0x00, address, Encode(rs), 0x99, [])
        == [0x04, 0x3E, 0x15] + [0x02, 0x01, 0x00, 0x00] + address + [0x09]
         + [0x02, 0x01, 0x06, 0x05, 0x09, 0x54, 0x65, 0x73, 0x74] + [0x99] + [];
  }

  /** The wire form of the example's two records. */
  lemma ExampleEncoding(rs: seq<Record>, name: seq<byte>)
    requires name == [0x54, 0x65, 0x73, 0x74] && rs == [Record(0x01, [0x06]), Record(0x09, name)]
    ensures WellFormed(rs)
    ensures Encode(rs) == [0x02, 0x01, 0x06, 0x05, 0x09, 0x54, 0x65, 0x73, 0x74]
  {
    var tail := rs[1..];
    assert tail == [Record(0x09, name)];
    assert |tail[1..]| == 0;
    assert Encode(tail[1..]) == [];
    assert EncodeRecord(rs[0]) == [0x02, 0x01, 0x06];
    assert EncodeRecord(tail[0]) == [0x05, 0x09] + name;
    assert Encode(tail) == EncodeRecord(tail[0]) + Encode(tail[1..]);
    assert Encode(rs) == EncodeRecord(rs[0]) + Encode(tail);
  }

  /** The dictionary the example's two records build. */
  lemma ExampleFields(rs: seq<Record>, name: seq<byte>)
    requires rs == [Record(0x01, [0x06]), Record(0x09, name)]
    ensures Assoc.Insert(map[], Pairs(rs)) == map[0x01 := [0x06], 0x09 := name]
  {
    var ps: seq<(byte, seq<byte>)> := Pairs(rs);
    assert ps == [(0x01, [0x06]), (0x09, name)];
    var tail := ps[1..];
    assert tail == [(0x09, name)];
    assert |tail[1..]| == 0;
    var m1: map<byte, seq<byte>> := map[0x01 := [0x06]];
    var m2 := m1[0x09 := name];
    assert Assoc.Insert(m2, tail[1..]) == m2;
    assert Assoc.Insert(m1, tail) == Assoc.Insert(m2, tail[1..]);
    assert Assoc.Insert(map[], ps) == Assoc.Insert(m1, tail);
    assert m2 == map[0x01 := [0x06], 0x09 := name];
  }
}

=== FILE: wrappers.dfy ===
/** Failure-carrying result types shared by the decoder and the scan session. */
module Wrappers {

  /** A value that may be absent. */
  datatype Option<+T> = None | Some(value: T)

  /** Either a value or the error that prevented it. */
  datatype Result<+R, +E> = Success(value: R) | Failure(error: E)
}
